=== FILE: README.md ===
# FileOpen DRM remover: the scan-and-patch engine

`app.py` takes the bytes of an uploaded PDF. It looks for the FileOpen filter marker `/FOPN_foweb` and patches each protected stream, so that a reader treats the stream as ordinary `FlateDecode` content. The patched buffer, a small `drm_info` record and the extracted text go back to the user interface.

This project models that engine in Dafny. It has three parts:

- **Scanner** (`scanner.dfy`) models `find_all_occurrences`. It is a loop of `find` calls that resumes one byte after each hit, so overlapping hits are reported too. `FindAllOccurrences` is that loop. It is proved equal to the recursive `Occurrences`, and `Occurrences` is proved to yield exactly the match offsets, in strictly ascending order.
- **Patcher** (`patcher.dfy`) models the live `process_drm`. For each marker offset it searches the window `buffer[pos-100:pos+1000]` of the *original* buffer for `stream\n` and `endstream`, the stream keywords of section 7.3.8 of ISO 32000-1. Only if both are there does it make three writes to a `bytearray` copy:
  - splice `/Filter/FlateDecode` over the 18 bytes of the first `/Filter/FOPN_foweb`;
  - set the `1` of the first `/V 1` to `'0'` (the offset is taken in the original buffer);
  - zero-fill the stream data.
  
  `ProcessDrm` is the loop and `WritePlan` makes the three writes. Both are proved against the functions `ProcessAll`, `PatchAt`, `Locate` and `ApplyPlan`. Those functions are then characterised, both at the level of the buffer and byte by byte through `PatchedByte`.
- **Analyzer** (`analyzer.dfy`) models `analyze_pdf`:
  - a missing `%PDF` header raises;
  - otherwise the file is scanned;
  - it is patched only when the marker occurs;
  - the size fields of `drm_info` are computed, with `round(len / 1024)` rounding half to even.

`pybytes.dfy` spells out the Python operations the engine depends on, together with their edge cases:
- a negative slice bound counts from the end of the sequence;
- a slice assignment with a longer value grows the bytearray;
- a reversed slice assignment inserts its value instead of replacing bytes;
- `bytearray[i] = x` raises IndexError outside `[-len, len)`;
- `b'\x00' * n` is empty when `n <= 0`;
- `find` returns -1 when the pattern is absent.

Bytes are integers in `[0, 256)`. Decoding with Latin-1 maps each byte to one character, so string offsets equal byte offsets and the model works on bytes throughout.

The code behaves in ways that a reader might not expect. The model keeps each one and proves it:

- **The filter rewrite grows the copy by one byte** (app.py:111). A 19-byte literal is assigned to an 18-byte slice. When every marker is at offset 100 or later, the output is therefore longer than the input by exactly the number of rewrites (`ProcessAllLength`), and no replacement is padded or truncated to fit its field. The later writes still use offsets taken from the original buffer. For the first occurrence that is patched, a rewrite that precedes a later target makes that write land one byte early:
  - The flag write hits the space before the digit, and `/V 1` becomes `/V01`. See `FlagWriteMissesDigit`.
  - The zero-fill clears the end-of-line of `stream\n` and keeps the last data byte. See `EraseMissesLastByte`.

  Both lemmas are about `PatchAt` on the unmodified buffer, that is, the first patched occurrence. For a later occurrence, every rewrite made earlier at a lower offset has already shifted the copy by one more byte, so k such rewrites shift that occurrence's writes by k bytes, its own filter rewrite included. `PatchEffect` states the effect on a copy of any length that is at least the original's.
- **The window start is `pos-100`, not `max(0, pos-100)`** (app.py:97). A negative start counts from the end of the buffer, and it is clamped to 0 only when even that reaches past the start of the buffer (`len + pos < 100`). See `SmallOffsetWindowFromEnd` and `SmallOffsetNeverPatched`.
- **For a marker at offset 100 or later, a reversed erasure range writes nothing** (app.py:121). This happens when `endstream` comes before the end of the first `stream\n`. See `ReversedRangeErasesNothing`.
- **For a marker below offset 100 in a short file, the zero-fill can delete bytes** (app.py:102-103, app.py:121). The erasure offsets come from the negative `pos-100`, and the slice assignment normalises them against the copy's length. With any 190 bytes in front of a closing `endstream\n` and a marker at 90, the raw range is `[0:-10]`: it is reversed as written, but Python reads it as `[0:190]` and replaces those 190 bytes with nothing, so the 200-byte file comes back as its last 10 bytes. See `SmallOffsetEraseDeletes`.

The scan looks for `/FOPN_foweb` anywhere, but the patch renames only the first `/Filter/FOPN_foweb` of each window. A second run over the output can therefore still find the marker, unless the occurrence lay inside a zero-filled range: `ErasedRangeHoldsNoMatch` proves that such an occurrence is wiped. The model does not state a lemma for the occurrences that survive, because a later write, shifted by earlier rewrites, can land on one of them.

## Model

| member | source | states |
|---|---|---|
| PyBytes.SliceBound | app.py:97 | a slice bound lands in `[0, n]`, and a bound already in range is kept |
| PyBytes.Slice | app.py:97 | `s[i:j]` is never longer than `s`, and equals `s[i..j]` for bounds in order and in range |
| PyBytes.SliceAssign | app.py:111 | `s[i:j] = v` is `s[..i] + v + s[j..]` for bounds in order, and inserts `v` at `i` when they are reversed |
| PyBytes.SetItem | app.py:117 | `s[i] = x` succeeds exactly when `-len <= i < len`; a negative index writes at `i + len`; otherwise it raises IndexError with `i` |
| PyBytes.Zeros | app.py:121 | `b'\x00' * n` has `max(n, 0)` bytes, all zero |
| PyBytes.Find | app.py:74 | `find(p, from)` is -1 or a match at or after `from`, and nothing matches between `from` and the result |
| PyBytes.MatchInSlice | app.py:97-99 | a match in the slice `s[lo..hi]` at `j` is exactly a match of `s` at `lo + j` that ends by `hi` |
| PyBytes.FindInSlice | app.py:97-99 | searching `s[lo..hi]` gives -1 exactly when no match of `s` lies inside `[lo, hi)`, and otherwise the first such match, relative to `lo` |
| Scanner.Occurrences | app.py:71-77 | every offset the generator yields is at or after its start and is a match of the pattern |
| Scanner.OccurrencesExact | app.py:71-77 | the scan from `from` yields exactly the offsets at or after `from` where the pattern occurs, in strictly ascending order, overlapping hits included |
| Scanner.NoOccurrenceEmptyScan | app.py:71-77 | the scan yields nothing exactly when the pattern occurs nowhere |
| Scanner.FindAllOccurrences | app.py:71-77 | the loop collects what `Occurrences` yields from 0: strictly ascending, and containing exactly the match offsets |
| Patcher.Window | app.py:97 | the window has at most 1100 bytes, and for `100 <= pos <= len + 100` it is exactly `buffer[pos-100 : min(pos+1000, len)]` |
| Patcher.Locate | app.py:97-103 | nothing is planned for an offset unless its window contains both `stream\n` and `endstream` |
| Patcher.ApplyPlan | app.py:106-121 | of the three writes only the flag write can fail; it fails exactly when the flag offset is outside `[-len, len)` of the renamed copy, with IndexError at that offset |
| Patcher.Renamed | app.py:111 | the splice of the 19-byte `/Filter/FlateDecode` over an in-range 18-byte span grows the copy by one byte and puts the new name at the span; `RenameEffect` gives every byte |
| Patcher.Erased | app.py:121 | the zero-fill with in-range bounds keeps the copy's length; `EraseEffect` gives every byte |
| Patcher.PatchAt | app.py:96-121 | an offset whose window lacks either stream keyword leaves the copy as it is; any failure is an IndexError |
| Patcher.ProcessAll | app.py:82-123 | the loop over all offsets fails only with IndexError |
| Patcher.WritePlan | app.py:106-121 | the three writes of the loop body, in source order, produce `ApplyPlan` of the copy |
| Patcher.PatchOccurrence | app.py:96-121 | one iteration of the loop produces `PatchAt` of the copy |
| Patcher.ProcessDrm | app.py:79-123 | the `for` loop over the offsets, writing into a copy of the input, produces `ProcessAll` from the input |
| Patcher.WindowFind | app.py:97-99 | with `pos >= 100`, searching the window finds the first occurrence of the pattern that lies wholly inside `[pos-100, min(pos+1000, len))`, or reports -1 exactly when there is none |
| Patcher.LocatePlanned | app.py:97-101 | with `pos >= 100`, an offset is planned exactly when both `stream\n` and `endstream` lie wholly inside its window |
| Patcher.LocateStreamStart | app.py:98-102 | the erasure starts right after the first `stream\n` inside the window |
| Patcher.LocateStreamEnd | app.py:99-103 | the erasure ends at the first `endstream` inside the window |
| Patcher.LocateFilter | app.py:107-109 | the rewrite is planned at the first `/Filter/FOPN_foweb` inside the window, and left out exactly when there is none |
| Patcher.LocateFlag | app.py:113-115 | the flag write is planned three bytes after the first `/V 1` inside the window, where the original holds `1`, and left out exactly when there is none |
| Patcher.LocateFits | app.py:97-115 | with `pos >= 100` every planned offset lies inside the buffer |
| Patcher.RenameEffect | app.py:111 | the filter splice grows the copy by one byte: bytes before the span are kept, the span becomes `/Filter/FlateDecode`, and later bytes move up by one |
| Patcher.EraseEffect | app.py:121 | the zero-fill keeps the length, zeroes `[start, end)` when the range is in order, and changes nothing when it is reversed |
| Patcher.ApplyPlanEffect | app.py:106-121 | a plan that fits the copy never raises; the copy grows by one byte exactly when the filter is rewritten, and each byte is as `PatchedByte` says |
| Patcher.PatchEffect | app.py:96-121 | with `pos >= 100` a planned occurrence never raises and grows the copy by one byte exactly when there is a filter to rewrite; each byte outside the filter span, the flag byte and the erasure range keeps its value, shifted by one after a rewrite |
| Patcher.FlagWriteMissesDigit | app.py:111-117 | for the first patched occurrence, after a rewrite that precedes `/V 1`, the flag write lands on the space, and the bytes read `/V01` |
| Patcher.ShiftedFlag | app.py:111-117 | the bytes around a flag written one byte short of the spliced position read `/V01` |
| Patcher.EraseMissesLastByte | app.py:102-121 | for the first patched occurrence, after a rewrite that precedes the stream, the zero-fill runs one byte early: `stream` stays intact, its end-of-line is zeroed, the last data byte survives and `endstream` is intact |
| Patcher.ShiftedErasure | app.py:111-121 | the bytes around a zero-fill one byte short of the spliced data are those that `ErasedOneEarly` lists |
| Patcher.ReversedRangeErasesNothing | app.py:98-121 | when the first `endstream` starts before the first `stream\n` ends and there is no filter to rewrite, only the flag byte changes |
| Patcher.SmallOffsetNeverPatched | app.py:97 | for `pos < 100` in a file of at least 1100 bytes, the window is empty and nothing is patched |
| Patcher.SmallOffsetWindowFromEnd | app.py:97 | for `pos < 100` the window starts at `len + pos - 100`, counted from the end of the buffer |
| Patcher.SmallOffsetEraseDeletes | app.py:97-121 | with any 190 bytes in front of a closing `endstream\n` and a marker at 90, the plan is the raw range `[0:-10]` with no filter and no flag, and the patch returns the last 10 bytes only |
| Patcher.ErasedRangeHoldsNoMatch | app.py:121 | after a planned occurrence with a full lookback, no pattern that starts with a non-zero byte, such as the marker, starts in the result at an offset of the zero-fill range `[streamStart, streamEnd)` |
| Patcher.ProcessAllLength | app.py:82-123 | when every offset is at least 100 the loop never raises, and the output is longer than the input by the number of filter rewrites |
| Patcher.ProcessAllUnpatched | app.py:97-101 | when no window holds both stream keywords, the loop returns its input unchanged |
| Analyzer.HasPdfHeader | app.py:142 | the header check passes exactly when the buffer has at least four bytes and they are `%PDF` |
| Analyzer.SizeKb | app.py:168 | `size_kb` is within half a kilobyte of the length, and a tie goes to the even value |
| Analyzer.SizeKbUnique | app.py:168 | any integer that is nearest to `len / 1024`, with ties to even, is `SizeKb` |
| Analyzer.Info | app.py:162-182 | the record carries the flag it is given, the file length, and `size_kb` within half a kilobyte |
| Analyzer.AnalyzePdf | app.py:136-184 | it raises NotPdf exactly when the header is wrong; on success `has_fileopen` holds exactly when the marker occurs, and the size fields are set; with no marker the buffer comes back unchanged and `has_fileopen` is false; with a marker, the buffer or the IndexError is exactly what `ProcessAll` gives on the scan's hits |
| Analyzer.Analyze | app.py:136-184 | the header check, the collected scan and `process_drm` run in source order and produce `AnalyzePdf` |
| Analyzer.AnalyzeLength | app.py:142-168 | with a good header and every marker at offset 100 or later, the analysis succeeds, and the patched buffer is longer than the file by the number of filter rewrites |
| Analyzer.AnalyzeFlaggedUnpatched | app.py:146-159 | when no marker's window holds both stream keywords, the file comes back unchanged, and it is flagged exactly when it holds a marker |

## Left out

- Streamlit output and logging are display only. This covers `main` (app.py:190-242), `dump_buffer` (app.py:65-69) and every `st.*` call.
- Text extraction, `extract_text_from_pdf` (app.py:125-134), wraps PyPDF2, which is not part of this model. `AnalyzePdf` returns the record and the buffer, but no text.
- The object-header diagnostics in `process_drm` (app.py:84-94) only read and print. They write nothing and cannot raise.
- The first, shadowed definition of `process_drm` (app.py:1-55) is dead code. So is the fused `return` on line 56.
- The constant labels of `drm_info` (`type`, `filter`, `key_length`) carry no logic.
- `SizeKb`: the rounding is exact only while the length converts to a float exactly, which holds below 2^53 bytes. Larger lengths are not modelled as floats.
- `WindowFind`, `LocatePlanned`, `LocateStreamStart`, `LocateStreamEnd`, `LocateFilter`, `LocateFlag` and `LocateFits` assume `pos >= 100`. Smaller offsets are covered only by `SmallOffsetWindowFromEnd` and `SmallOffsetNeverPatched`.
- `PatchEffect` assumes `pos >= 100`. It also assumes a copy at least as long as the original, which holds after any number of earlier occurrences.
- `ProcessAllLength` assumes every offset is at least 100. For smaller offsets the wrapped window can plan offsets outside the copy. The flag write can then raise, and the slice assignment of the zero-fill normalises the negative or out-of-range erasure bounds against the copy's length, so it can delete bytes (`SmallOffsetEraseDeletes`) or insert them. The length statement covers only offsets of 100 or more.
- `ReversedRangeErasesNothing` likewise assumes `pos >= 100`. Below 100 a range that is reversed as written can be in order once Python normalises it.
- The loop in `find_all_occurrences` is a generator. The model collects its output into a list, as `analyze_pdf` does with `list(...)`.

=== FILE: analyzer.dfy ===
/**
  The analysis driver (`analyze_pdf`): reject a buffer that does not start with `%PDF`,
  scan it for the FileOpen filter marker, patch it when the marker occurs and pass it
  through unchanged otherwise, and report the size of the file.
*/
module Analyzer {
  import opened Base
  import opened PyBytes
  import opened Scanner
  import opened Patcher

  /** `%PDF`, the first four bytes of every PDF file. */
  const PdfMagic: seq<byte> := [37, 80, 68, 70]
  /** `/FOPN_foweb`, the filter name of the FileOpen plug-in. */
  const Marker: seq<byte> := [47, 70, 79, 80, 78, 95, 102, 111, 119, 101, 98]

  /** The fields of the `drm_info` record that carry information. */
  datatype DrmInfo = DrmInfo(hasFileopen: bool, fileSize: nat, sizeKb: nat)

  /** What a successful analysis returns besides the extracted text. */
  datatype Analysis = Analysis(info: DrmInfo, processed: seq<byte>)

  /** `file_bytes[:4] == b'%PDF'`: a buffer shorter than four bytes never matches. */
  function HasPdfHeader(b: seq<byte>): (ok: bool)
    ensures ok <==> |b| >= 4 && b[0] == 37 && b[1] == 80 && b[2] == 68 && b[3] == 70
  {
    var head := Slice(b, 0, 4);
    assert |b| >= 4 ==> head == b[..4];
    head == PdfMagic
  }

  /** `round(n / 1024)`: the quotient is exact, and Python rounds it to the nearest
      integer, a tie to the even one. */
  function SizeKb(n: nat): (k: nat)
    ensures -512 <= n - 1024 * k <= 512
    ensures (n - 1024 * k == 512 || n - 1024 * k == -512) ==> k % 2 == 0
  {
    var q, r := n / 1024, n % 1024;
    if r < 512 then q
    else if r > 512 then q + 1
    else if q % 2 == 0 then q
    else q + 1
  }

  /** Nearest with ties to even picks one integer only, so `SizeKb` is the rounding Python does. */
  lemma SizeKbUnique(n: nat, m: int)
    requires -512 <= n - 1024 * m <= 512
    requires (n - 1024 * m == 512 || n - 1024 * m == -512) ==> m % 2 == 0
    ensures m == SizeKb(n)
  {
  }

  /** The record built in either branch; only `has_fileopen` differs. */
  function Info(hasFileopen: bool, fileBytes: seq<byte>): (info: DrmInfo)
    ensures info.hasFileopen == hasFileopen && info.fileSize == |fileBytes|
    ensures -512 <= info.fileSize - 1024 * info.sizeKb <= 512
  {
    DrmInfo(hasFileopen, |fileBytes|, SizeKb(|fileBytes|))
  }

  /** `analyze_pdf(file_bytes)`: a bad header raises `NotPdf` before any scan; an IndexError
      raised while patching propagates. */
  function AnalyzePdf(fileBytes: seq<byte>): (r: Result<Analysis, Error>)
    ensures r == Failure(NotPdf) <==> !HasPdfHeader(fileBytes)
    ensures r.Success? ==> r.value.info.fileSize == |fileBytes| && r.value.info.sizeKb == SizeKb(|fileBytes|)
    ensures r.Success? ==> (r.value.info.hasFileopen <==> exists i :: IsMatchAt(fileBytes, Marker, i))
    ensures (forall i :: !IsMatchAt(fileBytes, Marker, i)) ==>
              r == if HasPdfHeader(fileBytes) then Success(Analysis(Info(false, fileBytes), fileBytes)) else Failure(NotPdf)
    ensures r.Success? && r.value.info.hasFileopen ==>
              ProcessAll(fileBytes, fileBytes, Occurrences(fileBytes, Marker, 0)) == Success(r.value.processed)
    ensures r.Failure? && r.error != NotPdf ==>
              ProcessAll(fileBytes, fileBytes, Occurrences(fileBytes, Marker, 0)) == Failure(r.error)
  {
    if !HasPdfHeader(fileBytes) then Failure(NotPdf)
    else
      var matches := Occurrences(fileBytes, Marker, 0);
      NoOccurrenceEmptyScan(fileBytes, Marker);
      if matches != [] then
        match ProcessAll(fileBytes, fileBytes, matches)
        case Failure(e) => Failure(e)
        case Success(processed) => Success(Analysis(Info(true, fileBytes), processed))
      else Success(Analysis(Info(false, fileBytes), fileBytes))
  }

  /** `analyze_pdf` as the program runs it: the scan's generator collected into a list, then
      `process_drm` on the hits. */
  method Analyze(fileBytes: seq<byte>) returns (r: Result<Analysis, Error>)
    ensures r == AnalyzePdf(fileBytes)
  {
    if !HasPdfHeader(fileBytes) {
      return Failure(NotPdf);
    }
    var matches := FindAllOccurrences(fileBytes, Marker);
    if matches != [] {
      var processed := ProcessDrm(fileBytes, matches);
      if processed.Failure? {
        return Failure(processed.error);
      }
      r := Success(Analysis(Info(true, fileBytes), processed.value));
    } else {
      r := Success(Analysis(Info(false, fileBytes), fileBytes));
    }
  }

  /** A protected file whose markers all have a full lookback is never rejected once its
      header is right, and the patched copy is longer than the file by the number of filter
      names rewritten. */
  lemma AnalyzeLength(fileBytes: seq<byte>)
    requires HasPdfHeader(fileBytes)
    requires forall i :: IsMatchAt(fileBytes, Marker, i) ==> i >= Lookback
    ensures AnalyzePdf(fileBytes).Success?
    ensures |AnalyzePdf(fileBytes).value.processed| ==
              |fileBytes| + RenameCount(fileBytes, Occurrences(fileBytes, Marker, 0))
  {
    var matches := Occurrences(fileBytes, Marker, 0);
    OccurrencesExact(fileBytes, Marker, 0);
    forall i | 0 <= i < |matches|
      ensures matches[i] >= Lookback
    {
      assert matches[i] in matches;
    }
    ProcessAllLength(fileBytes, fileBytes, matches);
  }

  /** A marker whose window lacks `stream\n` or `endstream` is reported but not patched: when
      that holds for every marker, the file comes back unchanged, and it is flagged exactly
      when it holds a marker at all. */
  lemma AnalyzeFlaggedUnpatched(fileBytes: seq<byte>)
    requires HasPdfHeader(fileBytes)
    requires forall i :: IsMatchAt(fileBytes, Marker, i) ==> !HasStreamKeywords(Window(fileBytes, i))
    ensures AnalyzePdf(fileBytes).Success?
    ensures AnalyzePdf(fileBytes).value.processed == fileBytes
    ensures AnalyzePdf(fileBytes).value.info.hasFileopen <==> exists i :: IsMatchAt(fileBytes, Marker, i)
  {
    var matches := Occurrences(fileBytes, Marker, 0);
    OccurrencesExact(fileBytes, Marker, 0);
    forall i | 0 <= i < |matches|
      ensures !HasStreamKeywords(Window(fileBytes, matches[i]))
    {
      assert matches[i] in matches;
    }
    ProcessAllUnpatched(fileBytes, fileBytes, matches);
  }
}

=== FILE: base.dfy ===
/** Values shared by every stage of the scan-and-patch engine. */
module Base {

  /** One byte of a document buffer; Latin-1 decoding maps it to exactly one character. */
  type byte = x: int | 0 <= x < 256

  datatype Option<+T> = None | Some(value: T)

  datatype Result<+T, +E> = Success(value: T) | Failure(error: E)

  /** The two ways an analysis can raise. */
  datatype Error =
    | NotPdf                        // the buffer does not start with `%PDF`
    | IndexOutOfRange(index: int)   // `bytearray[i] = ...` with an index Python rejects
}

=== FILE: patcher.dfy ===
/**
  The patcher (`process_drm`, the live definition): for each marker offset it searches a
  window of the ORIGINAL buffer for the stream keywords of section 7.3.8 of ISO 32000-1
  (`stream` followed by an end-of-line, and `endstream`), and only if both are there it
  rewrites the filter name, clears the `/V 1` flag and zero-fills the stream data in a
  bytearray copy.

  Offsets are always computed from the original buffer, relative to `pos - 100`, while the
  writes go to the copy, whose length grows by one byte with every filter rewrite
  (`/Filter/FlateDecode` is one byte longer than `/Filter/FOPN_foweb`).
*/
module Patcher {
  import opened Base
  import opened PyBytes

  /** Bytes searched before and after a marker offset. */
  const Lookback := 100
  const Lookahead := 1000

  // The literals, byte by byte (Latin-1 code points).
  const StreamKw: seq<byte> := [115, 116, 114, 101, 97, 109, 10]    // "stream\n"
  const EndstreamKw: seq<byte> := [101, 110, 100, 115, 116, 114, 101, 97, 109]    // "endstream"
  // "/Filter/FOPN_foweb"
  const FopnFilter: seq<byte> := [47, 70, 105, 108, 116, 101, 114, 47, 70, 79, 80, 78, 95, 102, 111, 119, 101, 98]
  // "/Filter/FlateDecode"
  const FlateFilter: seq<byte> := [47, 70, 105, 108, 116, 101, 114, 47, 70, 108, 97, 116, 101, 68, 101, 99, 111, 100, 101]
  const FlagV1: seq<byte> := [47, 86, 32, 49]               // "/V 1"
  /** `ord('0')`, written over the flag digit (the `1` of `/V 1` is 49). */
  const FlagCleared: byte := 48

  /** The offsets one occurrence's writes use, all relative to the original buffer. */
  datatype Plan = Plan(
    streamStart: int,         // first byte after `stream\n`
    streamEnd: int,           // first byte of `endstream`
    filterAt: Option<int>,    // start of `/Filter/FOPN_foweb`, if the window has one
    flagAt: Option<int>)      // the `1` of the first `/V 1`, if the window has one

  /** `buffer[pos-100:pos+1000]`, with Python's slice rules: the start is `pos-100`, not
      `max(0, pos-100)`, so a negative start counts from the end of the buffer, and it is
      clamped to 0 only when it still reaches past the start. */
  function Window(buffer: seq<byte>, pos: int): (w: seq<byte>)
    ensures |w| <= Lookback + Lookahead
    ensures Lookback <= pos <= |buffer| + Lookback ==> w == buffer[pos - Lookback..WindowHi(buffer, pos)]
  {
    Slice(buffer, pos - Lookback, pos + Lookahead)
  }

  ghost predicate Contains(s: seq<byte>, p: seq<byte>)
  {
    exists i :: IsMatchAt(s, p, i)
  }

  /** Both stream keywords occur in a window. */
  ghost predicate HasStreamKeywords(window: seq<byte>)
  {
    Contains(window, StreamKw) && Contains(window, EndstreamKw)
  }

  /** The searches of one loop iteration: nothing is planned unless the window holds both
      `stream\n` and `endstream`; the other two fields are optional. */
  function Locate(buffer: seq<byte>, pos: int): (p: Option<Plan>)
    ensures p.None? <==> !HasStreamKeywords(Window(buffer, pos))
  {
    var window := Window(buffer, pos);
    var streamPos := Find(window, StreamKw, 0);
    var endstreamPos := Find(window, EndstreamKw, 0);
    if streamPos == -1 || endstreamPos == -1 then None
    else
      var base := pos - Lookback;
      var filterPos := Find(window, FopnFilter, 0);
      var flagPos := Find(window, FlagV1, 0);
      Some(Plan(base + streamPos + 7, base + endstreamPos,
                if filterPos == -1 then None else Some(base + filterPos),
                if flagPos == -1 then None else Some(base + flagPos + 3)))
  }

  /** The three writes of one iteration, in source order: splice the 19-byte filter name
      over the 18-byte one, set the flag byte (which raises when Python rejects the index),
      then zero-fill `[streamStart, streamEnd)`. */
  function ApplyPlan(out: seq<byte>, plan: Plan): (r: Result<seq<byte>, Error>)
    ensures r.Failure? <==>
              plan.flagAt.Some? && !(-|Renamed(out, plan)| <= plan.flagAt.value < |Renamed(out, plan)|)
    ensures r.Failure? ==> r.error == IndexOutOfRange(plan.flagAt.value)
  {
    var renamed := Renamed(out, plan);
    var flagged :=
      if plan.flagAt.Some? then SetItem(renamed, plan.flagAt.value, FlagCleared)
      else Success(renamed);
    match flagged
    case Failure(e) => Failure(e)
    case Success(b) => Success(Erased(b, plan))
  }

  /** The first write: the 19-byte filter name spliced over the 18 bytes at `filterAt`. */
  function Renamed(out: seq<byte>, plan: Plan): (r: seq<byte>)
    ensures plan.filterAt.Some? && 0 <= plan.filterAt.value && plan.filterAt.value + 18 <= |out| ==>
              |r| == |out| + 1 && r[plan.filterAt.value..plan.filterAt.value + 19] == FlateFilter
  {
    if plan.filterAt.Some? then SliceAssign(out, plan.filterAt.value, plan.filterAt.value + 18, FlateFilter)
    else out
  }

  /** The last write: `[streamStart, streamEnd)` replaced by as many zero bytes. */
  function Erased(b: seq<byte>, plan: Plan): (r: seq<byte>)
    ensures 0 <= plan.streamStart <= |b| && 0 <= plan.streamEnd <= |b| ==> |r| == |b|
  {
    SliceAssign(b, plan.streamStart, plan.streamEnd, Zeros(plan.streamEnd - plan.streamStart))
  }

  /** One iteration of the loop over marker offsets, applied to the copy `out`. */
  function PatchAt(buffer: seq<byte>, out: seq<byte>, pos: int): (r: Result<seq<byte>, Error>)
    ensures !HasStreamKeywords(Window(buffer, pos)) ==> r == Success(out)
    ensures r.Failure? ==> r.error.IndexOutOfRange?
  {
    match Locate(buffer, pos)
    case None => Success(out)
    case Some(plan) => ApplyPlan(out, plan)
  }

  /** The whole loop: the occurrences in order, each patching the copy left by the previous
      one; the first IndexError aborts. */
  function ProcessAll(buffer: seq<byte>, out: seq<byte>, positions: seq<int>): (r: Result<seq<byte>, Error>)
    ensures r.Failure? ==> r.error.IndexOutOfRange?
    decreases |positions|
  {
    if positions == [] then Success(out)
    else
      match PatchAt(buffer, out, positions[0])
      case Failure(e) => Failure(e)
      case Success(next) => ProcessAll(buffer, next, positions[1..])
  }

  /** The three writes of one occurrence to the copy, as the loop body makes them. */
  method WritePlan(processed: seq<byte>, plan: Plan) returns (r: Result<seq<byte>, Error>)
    ensures r == ApplyPlan(processed, plan)
  {
    var patched := processed;
    if plan.filterAt.Some? {
      patched := SliceAssign(patched, plan.filterAt.value, plan.filterAt.value + 18, FlateFilter);
    }
    if plan.flagAt.Some? {
      var flagged := SetItem(patched, plan.flagAt.value, FlagCleared);
      if flagged.Failure? {
        return Failure(flagged.error);
      }
      patched := flagged.value;
    }
    patched := SliceAssign(patched, plan.streamStart, plan.streamEnd, Zeros(plan.streamEnd - plan.streamStart));
    return Success(patched);
  }

  /** The body of the loop in `process_drm` for one marker offset: search the window of
      the original buffer, then make the writes to the copy. */
  method PatchOccurrence(buffer: seq<byte>, processed: seq<byte>, pos: int) returns (r: Result<seq<byte>, Error>)
    ensures r == PatchAt(buffer, processed, pos)
  {
    var located := Locate(buffer, pos);
    if located.None? {
      return Success(processed);
    }
    r := WritePlan(processed, located.value);
  }

  /** `process_drm(buffer, positions)`: the bytearray copy is a local sequence that each
      write replaces, since a splice changes its length. */
  method ProcessDrm(buffer: seq<byte>, positions: seq<int>) returns (r: Result<seq<byte>, Error>)
    ensures r == ProcessAll(buffer, buffer, positions)
  {
    var processed := buffer;
    for k := 0 to |positions|
      invariant ProcessAll(buffer, buffer, positions) == ProcessAll(buffer, processed, positions[k..])
    {
      assert positions[k..][0] == positions[k] && positions[k..][1..] == positions[k + 1..];
      var step := PatchOccurrence(buffer, processed, positions[k]);
      if step.Failure? {
        return step;
      }
      processed := step.value;
    }
    return Success(processed);
  }

  // ----- Where the searches land, for an offset with a full lookback -----

  /** First and last offset (exclusive) of the window once Python has clamped its end. */
  function WindowLo(pos: int): (lo: int) { pos - Lookback }
  function WindowHi(buffer: seq<byte>, pos: int): (hi: int)
  {
    if pos + Lookahead < |buffer| then pos + Lookahead else |buffer|
  }

  /** `pat` lies wholly inside the window of `pos` at `at`, and starts nowhere earlier in it. */
  ghost predicate FirstInWindow(buffer: seq<byte>, pos: int, pat: seq<byte>, at: int)
  {
    FirstMatchIn(buffer, pat, WindowLo(pos), WindowHi(buffer, pos), at)
  }

  /** `pat` lies wholly inside the window of `pos` nowhere. */
  ghost predicate AbsentFromWindow(buffer: seq<byte>, pos: int, pat: seq<byte>)
  {
    NoMatchIn(buffer, pat, WindowLo(pos), WindowHi(buffer, pos))
  }

  /** A search of the window, translated back to offsets of the buffer. */
  lemma WindowFind(buffer: seq<byte>, pos: int, pat: seq<byte>)
    requires pos >= Lookback && |pat| > 0
    ensures var r := Find(Window(buffer, pos), pat, 0);
            && (r == -1 <==> AbsentFromWindow(buffer, pos, pat))
            && (r != -1 ==> FirstInWindow(buffer, pos, pat, WindowLo(pos) + r))
  {
    var lo, hi := WindowLo(pos), WindowHi(buffer, pos);
    if lo > |buffer| {
      assert Window(buffer, pos) == [];
    } else {
      assert Window(buffer, pos) == buffer[lo..hi];
      FindInSlice(buffer, lo, hi, pat);
    }
  }

  /** With a full lookback (`pos >= 100`) an occurrence is planned exactly when both
      keywords lie inside `[pos-100, min(pos+1000, len))`. */
  lemma LocatePlanned(buffer: seq<byte>, pos: int)
    requires pos >= Lookback
    ensures Locate(buffer, pos).Some? <==>
              !AbsentFromWindow(buffer, pos, StreamKw) && !AbsentFromWindow(buffer, pos, EndstreamKw)
  {
    WindowFind(buffer, pos, StreamKw);
    WindowFind(buffer, pos, EndstreamKw);
  }

  /** With a full lookback the erasure range starts just after the first `stream\n` inside
      the window. */
  lemma LocateStreamStart(buffer: seq<byte>, pos: int)
    requires pos >= Lookback
    ensures Locate(buffer, pos).Some? ==>
              FirstInWindow(buffer, pos, StreamKw, Locate(buffer, pos).value.streamStart - |StreamKw|)
  {
    if Locate(buffer, pos).Some? {
      var found := Find(Window(buffer, pos), StreamKw, 0);
      assert Locate(buffer, pos).value.streamStart - |StreamKw| == WindowLo(pos) + found;
      WindowFind(buffer, pos, StreamKw);
    }
  }

  /** With a full lookback the erasure range ends at the first `endstream` inside the window. */
  lemma LocateStreamEnd(buffer: seq<byte>, pos: int)
    requires pos >= Lookback
    ensures Locate(buffer, pos).Some? ==>
              FirstInWindow(buffer, pos, EndstreamKw, Locate(buffer, pos).value.streamEnd)
  {
    if Locate(buffer, pos).Some? {
      var found := Find(Window(buffer, pos), EndstreamKw, 0);
      assert Locate(buffer, pos).value.streamEnd == WindowLo(pos) + found;
      WindowFind(buffer, pos, EndstreamKw);
    }
  }

  /** With a full lookback the filter rewrite, when planned, starts at the first
      `/Filter/FOPN_foweb` inside the window, and is left out only when there is none. */
  lemma LocateFilter(buffer: seq<byte>, pos: int)
    requires pos >= Lookback
    ensures Locate(buffer, pos).Some? ==>
              match Locate(buffer, pos).value.filterAt
              case Some(a) => FirstInWindow(buffer, pos, FopnFilter, a)
              case None => AbsentFromWindow(buffer, pos, FopnFilter)
  {
    var w := Window(buffer, pos);
    if Locate(buffer, pos).Some? {
      var filterPos := Find(w, FopnFilter, 0);
      WindowFind(buffer, pos, FopnFilter);
      var plan := Locate(buffer, pos).value;
      assert plan.filterAt == if filterPos == -1 then None else Some(WindowLo(pos) + filterPos);
    }
  }

  /** With a full lookback the flag write, when planned, hits the `1` of the first `/V 1`
      inside the window (three bytes after its start), and is left out only when there is none. */
  lemma LocateFlag(buffer: seq<byte>, pos: int)
    requires pos >= Lookback
    ensures Locate(buffer, pos).Some? ==>
              match Locate(buffer, pos).value.flagAt
              case Some(v) => FirstInWindow(buffer, pos, FlagV1, v - 3) && buffer[v] == 49
              case None => AbsentFromWindow(buffer, pos, FlagV1)
  {
    var w := Window(buffer, pos);
    if Locate(buffer, pos).Some? {
      var flagPos := Find(w, FlagV1, 0);
      WindowFind(buffer, pos, FlagV1);
      var plan := Locate(buffer, pos).value;
      assert plan.flagAt == if flagPos == -1 then None else Some(WindowLo(pos) + flagPos + 3);
      if flagPos != -1 {
        var v := plan.flagAt.value;
        assert buffer[v - 3..v + 1] == FlagV1;
        
        assert buffer[v] == FlagV1[3];
      }
    }
  }

  // ----- What one occurrence's writes do -----

  /** Byte `k` of the copy after the filter rewrite, read pointwise: the 18-byte name is
      replaced by the 19-byte one, so every byte after it moves up by one. */
  function RenamedByte(out: seq<byte>, plan: Plan, k: int): (b: byte)
    requires plan.filterAt.Some? ==> 0 <= plan.filterAt.value && plan.filterAt.value + 18 <= |out|
    requires 0 <= k < |out| + (if plan.filterAt.Some? then 1 else 0)
  {
    match plan.filterAt
    case None => out[k]
    case Some(a) => if k < a then out[k] else if k < a + 19 then FlateFilter[k - a] else out[k - 1]
  }

  /** Byte `k` of the copy after one occurrence's writes, read pointwise: zero inside the
      erasure range, `0` at the flag byte, otherwise the byte after the filter rewrite. The
      offsets are those of the plan, i.e. of the copy BEFORE the splice. */
  function PatchedByte(out: seq<byte>, plan: Plan, k: int): (b: byte)
    requires plan.filterAt.Some? ==> 0 <= plan.filterAt.value && plan.filterAt.value + 18 <= |out|
    requires 0 <= k < |out| + (if plan.filterAt.Some? then 1 else 0)
  {
    if plan.streamStart <= k < plan.streamEnd then 0
    else if plan.flagAt == Some(k) then FlagCleared
    else RenamedByte(out, plan, k)
  }

  /** Splicing the 19-byte name over the 18 bytes at `filterAt` grows the copy by one byte
      and moves every byte after the span up by one; without a filter nothing changes. */
  lemma RenameEffect(out: seq<byte>, plan: Plan)
    requires plan.filterAt.Some? ==> 0 <= plan.filterAt.value && plan.filterAt.value + 18 <= |out|
    ensures |Renamed(out, plan)| == |out| + (if plan.filterAt.Some? then 1 else 0)
    ensures forall k :: 0 <= k < |Renamed(out, plan)| ==> Renamed(out, plan)[k] == RenamedByte(out, plan, k)
  {
    if plan.filterAt.Some? {
      var a, r := plan.filterAt.value, Renamed(out, plan);
      assert r == out[..a] + FlateFilter + out[a + 18..];
      forall k | 0 <= k < |r|
        ensures r[k] == RenamedByte(out, plan, k)
      {
        if k < a {
          assert r[k] == out[..a][k];
        } else if k < a + 19 {
          assert r[k] == (out[..a] + FlateFilter)[k];
        } else {
          assert r[k] == out[a + 18..][k - a - 19];
        }
      }
    }
  }

  /** The zero-fill keeps the length; it zeroes `[streamStart, streamEnd)` when that range is
      in order and changes nothing when it is reversed. */
  lemma EraseEffect(b: seq<byte>, plan: Plan)
    requires 0 <= plan.streamStart <= |b| && 0 <= plan.streamEnd <= |b|
    ensures |Erased(b, plan)| == |b|
    ensures forall k :: 0 <= k < |b| ==>
              Erased(b, plan)[k] == if plan.streamStart <= k < plan.streamEnd then 0 else b[k]
  {
    var ss, se, r := plan.streamStart, plan.streamEnd, Erased(b, plan);
    if ss <= se {
      assert r == b[..ss] + Zeros(se - ss) + b[se..];
      forall k | 0 <= k < |b|
        ensures r[k] == if ss <= k < se then 0 else b[k]
      {
        if k < ss {
          assert r[k] == b[..ss][k];
        } else if k < se {
          assert r[k] == (b[..ss] + Zeros(se - ss))[k];
        } else {
          assert r[k] == b[se..][k - se];
        }
      }
    } else {
      assert r == b[..ss] + [] + b[ss..];
      assert r == b;
    }
  }

  /** Every offset of a plan falls inside a copy of length `n`: both erasure bounds, the
      18-byte filter span and the flag byte. */
  predicate Fits(plan: Plan, n: int)
  {
    && 0 <= plan.streamStart <= n && 0 <= plan.streamEnd <= n
    && (plan.filterAt.Some? ==> 0 <= plan.filterAt.value && plan.filterAt.value + 18 <= n)
    && (plan.flagAt.Some? ==> 0 <= plan.flagAt.value < n)
  }

  /** With a full lookback every planned offset falls inside the buffer searched. */
  lemma LocateFits(buffer: seq<byte>, pos: int)
    requires pos >= Lookback
    ensures Locate(buffer, pos).Some? ==> Fits(Locate(buffer, pos).value, |buffer|)
  {
    LocateStreamStart(buffer, pos);
    LocateStreamEnd(buffer, pos);
    LocateFilter(buffer, pos);
    LocateFlag(buffer, pos);
  }

  /** What the quirk lemmas need of a located plan, without the quantifiers over the
      window: its offsets fit the buffer, and the keywords and the flag sit where it says. */
  lemma LocatedKeywords(buffer: seq<byte>, pos: int, plan: Plan)
    requires pos >= Lookback && Locate(buffer, pos) == Some(plan)
    ensures Fits(plan, |buffer|) && plan.streamEnd + |EndstreamKw| <= |buffer|
    ensures IsMatchAt(buffer, StreamKw, plan.streamStart - |StreamKw|)
    ensures IsMatchAt(buffer, EndstreamKw, plan.streamEnd)
    ensures plan.flagAt.Some? ==> IsMatchAt(buffer, FlagV1, plan.flagAt.value - 3)
  {
    LocateFits(buffer, pos);
    LocateStreamStart(buffer, pos);
    LocateStreamEnd(buffer, pos);
    LocateFlag(buffer, pos);
  }

  /** The plan's writes never raise when its offsets fall inside the copy; the copy grows by
      one byte exactly when the filter is rewritten, and every byte is as `PatchedByte` says. */
  lemma ApplyPlanEffect(out: seq<byte>, plan: Plan)
    requires Fits(plan, |out|)
    ensures ApplyPlan(out, plan).Success?
    ensures |ApplyPlan(out, plan).value| == |out| + (if plan.filterAt.Some? then 1 else 0)
    ensures forall k :: 0 <= k < |ApplyPlan(out, plan).value| ==>
              ApplyPlan(out, plan).value[k] == PatchedByte(out, plan, k)
  {
    var renamed := Renamed(out, plan);
    RenameEffect(out, plan);
    var flagged := if plan.flagAt.Some? then renamed[plan.flagAt.value := FlagCleared] else renamed;
    EraseEffect(flagged, plan);
    assert ApplyPlan(out, plan) == Success(Erased(flagged, plan));
    ComposedBytes(out, plan, renamed, flagged, Erased(flagged, plan));
  }

  /** The three writes composed, byte by byte. */
  lemma ComposedBytes(out: seq<byte>, plan: Plan, renamed: seq<byte>, flagged: seq<byte>, r: seq<byte>)
    requires Fits(plan, |out|)
    requires |renamed| == |out| + (if plan.filterAt.Some? then 1 else 0)
    requires forall k :: 0 <= k < |renamed| ==> renamed[k] == RenamedByte(out, plan, k)
    requires flagged == if plan.flagAt.Some? then renamed[plan.flagAt.value := FlagCleared] else renamed
    requires |r| == |flagged|
    requires forall k :: 0 <= k < |flagged| ==>
               r[k] == if plan.streamStart <= k < plan.streamEnd then 0 else flagged[k]
    ensures forall k :: 0 <= k < |r| ==> r[k] == PatchedByte(out, plan, k)
  {
    forall k | 0 <= k < |r|
      ensures r[k] == PatchedByte(out, plan, k)
    {
      if plan.streamStart <= k < plan.streamEnd {
        assert r[k] == 0;
      } else if plan.flagAt == Some(k) {
        assert r[k] == flagged[k] == FlagCleared;
      } else {
        assert r[k] == flagged[k] == renamed[k];
      }
    }
  }

  /** One occurrence with a full lookback, patched into a copy at least as long as the
      original: it never raises, the copy grows by one byte exactly when the window holds
      `/Filter/FOPN_foweb`, and every byte of the result is as `PatchedByte` says; in
      particular every byte outside the filter span, the flag byte and the erasure range keeps
      its value (shifted up by one after a rewritten filter name). */
  lemma PatchEffect(buffer: seq<byte>, out: seq<byte>, pos: int)
    requires pos >= Lookback && |out| >= |buffer|
    requires Locate(buffer, pos).Some?
    ensures var plan := Locate(buffer, pos).value;
            var r := PatchAt(buffer, out, pos);
            && r.Success?
            && |r.value| == |out| + (if plan.filterAt.Some? then 1 else 0)
            && forall k :: 0 <= k < |r.value| ==> r.value[k] == PatchedByte(out, plan, k)
  {
    LocateFits(buffer, pos);
    ApplyPlanEffect(out, Locate(buffer, pos).value);
  }

  // ----- The quirks of the live `process_drm` -----

  /** For the first patched occurrence (the copy is still the buffer): after a filter
      rewrite that precedes `/V 1`, the flag write lands one byte early in the grown copy:
      it overwrites the space, and the flag still reads `1` (`/V01`). */
  lemma FlagWriteMissesDigit(buffer: seq<byte>, pos: int, plan: Plan)
    requires pos >= Lookback && Locate(buffer, pos) == Some(plan)
    requires plan.filterAt.Some? && plan.flagAt.Some?
    requires plan.filterAt.value + |FopnFilter| <= plan.flagAt.value - 3
    requires plan.flagAt.value + 1 < plan.streamStart
    ensures PatchAt(buffer, buffer, pos).Success?
    ensures var v, r := plan.flagAt.value, PatchAt(buffer, buffer, pos).value;
            && 2 <= v && v + 1 < |r|
            && r[v - 2] == 47 && r[v - 1] == 86 && r[v] == 48 && r[v + 1] == 49   // "/V01"
  {
    LocatedKeywords(buffer, pos, plan);
    PatchEffect(buffer, buffer, pos);
    ShiftedFlag(buffer, plan, PatchAt(buffer, buffer, pos).value);
  }

  /** The bytes around the flag once it has been written at an offset one byte short of
      where the splice has moved it. */
  lemma ShiftedFlag(buffer: seq<byte>, plan: Plan, r: seq<byte>)
    requires Fits(plan, |buffer|)
    requires plan.filterAt.Some? && plan.flagAt.Some?
    requires plan.filterAt.value + |FopnFilter| <= plan.flagAt.value - 3
    requires plan.flagAt.value + 1 < plan.streamStart
    requires IsMatchAt(buffer, FlagV1, plan.flagAt.value - 3)
    requires |r| == |buffer| + 1
    requires forall k :: 0 <= k < |r| ==> r[k] == PatchedByte(buffer, plan, k)
    ensures var v := plan.flagAt.value;
            && 2 <= v && v + 1 < |r|
            && r[v - 2] == 47 && r[v - 1] == 86 && r[v] == 48 && r[v + 1] == 49
  {
    var v := plan.flagAt.value;
    MatchedByte(buffer, FlagV1, v - 3, v - 3);
    MatchedByte(buffer, FlagV1, v - 3, v - 2);
    MatchedByte(buffer, FlagV1, v - 3, v);
    assert r[v - 2] == PatchedByte(buffer, plan, v - 2) == buffer[v - 3];
    assert r[v - 1] == PatchedByte(buffer, plan, v - 1) == buffer[v - 2];
    assert r[v] == PatchedByte(buffer, plan, v);
    assert r[v + 1] == PatchedByte(buffer, plan, v + 1) == buffer[v];
  }

  /** The bytes around the stream data of `buffer` in the result `r` of a zero-fill made
      with offsets one byte short of where a splice has moved the data: `stream` stays in
      front of the range, the end-of-line of `stream\n` is the first byte zeroed, the last
      data byte survives in front of `endstream`, and `endstream` itself is intact. */
  ghost predicate ErasedOneEarly(buffer: seq<byte>, plan: Plan, r: seq<byte>)
  {
    var ss, se := plan.streamStart, plan.streamEnd;
    && 7 <= ss <= se && se + |EndstreamKw| <= |buffer| && |r| == |buffer| + 1
    && (forall k :: ss - 6 <= k < ss ==> r[k] == StreamKw[k - (ss - 6)])
    && (ss < se ==> buffer[ss - 1] == 10 && r[ss] == 0)
    && (forall k :: ss <= k < se ==> r[k] == 0)
    && r[se] == buffer[se - 1]
    && (forall k :: se < k <= se + |EndstreamKw| ==> r[k] == EndstreamKw[k - se - 1])
  }

  /** For the first patched occurrence (the copy is still the buffer): after a filter
      rewrite that precedes the stream, the zero-fill lands one byte early in the grown
      copy, as `ErasedOneEarly` describes. */
  lemma EraseMissesLastByte(buffer: seq<byte>, pos: int, plan: Plan)
    requires pos >= Lookback && Locate(buffer, pos) == Some(plan)
    requires plan.filterAt.Some? && plan.filterAt.value + |FopnFilter| <= plan.streamStart - |StreamKw|
    requires plan.streamStart <= plan.streamEnd
    requires plan.flagAt.None? || plan.flagAt.value < plan.streamStart - |StreamKw|
    ensures PatchAt(buffer, buffer, pos).Success?
    ensures ErasedOneEarly(buffer, plan, PatchAt(buffer, buffer, pos).value)
  {
    LocatedKeywords(buffer, pos, plan);
    PatchEffect(buffer, buffer, pos);
    ShiftedErasure(buffer, plan, PatchAt(buffer, buffer, pos).value);
  }

  /** The bytes around the stream data once the zero-fill has been applied with offsets one
      byte short of where the splice has moved the data. */
  lemma ShiftedErasure(buffer: seq<byte>, plan: Plan, r: seq<byte>)
    requires Fits(plan, |buffer|)
    requires plan.filterAt.Some? && plan.filterAt.value + |FopnFilter| <= plan.streamStart - |StreamKw|
    requires plan.streamStart <= plan.streamEnd && plan.streamEnd + |EndstreamKw| <= |buffer|
    requires plan.flagAt.None? || plan.flagAt.value < plan.streamStart - |StreamKw|
    requires IsMatchAt(buffer, StreamKw, plan.streamStart - |StreamKw|)
    requires IsMatchAt(buffer, EndstreamKw, plan.streamEnd)
    requires |r| == |buffer| + 1
    requires forall k :: 0 <= k < |r| ==> r[k] == PatchedByte(buffer, plan, k)
    ensures ErasedOneEarly(buffer, plan, r)
  {
    var ss, se := plan.streamStart, plan.streamEnd;
    ShiftedStreamKw(buffer, plan, r);
    ShiftedEndstreamKw(buffer, plan, r);
    forall k | ss <= k < se
      ensures r[k] == 0
    {
      assert r[k] == PatchedByte(buffer, plan, k);
    }
  }

  /** In front of the shifted zero-fill: `stream` moved up by one, its end-of-line zeroed. */
  lemma ShiftedStreamKw(buffer: seq<byte>, plan: Plan, r: seq<byte>)
    requires Fits(plan, |buffer|)
    requires plan.filterAt.Some? && plan.filterAt.value + |FopnFilter| <= plan.streamStart - |StreamKw|
    requires plan.streamStart <= plan.streamEnd
    requires plan.flagAt.None? || plan.flagAt.value < plan.streamStart - |StreamKw|
    requires IsMatchAt(buffer, StreamKw, plan.streamStart - |StreamKw|)
    requires |r| == |buffer| + 1
    requires forall k :: 0 <= k < |r| ==> r[k] == PatchedByte(buffer, plan, k)
    ensures var ss, se := plan.streamStart, plan.streamEnd;
            && (forall k :: ss - 6 <= k < ss ==> r[k] == StreamKw[k - (ss - 6)])
            && (ss < se ==> buffer[ss - 1] == 10 && r[ss] == 0)
  {
    var ss, se := plan.streamStart, plan.streamEnd;
    forall k | ss - 6 <= k < ss
      ensures r[k] == StreamKw[k - (ss - 6)]
    {
      assert r[k] == PatchedByte(buffer, plan, k) == buffer[k - 1];
      MatchedByte(buffer, StreamKw, ss - |StreamKw|, k - 1);
    }
    MatchedByte(buffer, StreamKw, ss - |StreamKw|, ss - 1);
    if ss < se {
      assert r[ss] == PatchedByte(buffer, plan, ss);
    }
  }

  /** Behind the shifted zero-fill: the last data byte, then `endstream` moved up by one. */
  lemma ShiftedEndstreamKw(buffer: seq<byte>, plan: Plan, r: seq<byte>)
    requires Fits(plan, |buffer|)
    requires plan.filterAt.Some? && plan.filterAt.value + |FopnFilter| <= plan.streamStart - |StreamKw|
    requires plan.streamStart <= plan.streamEnd && plan.streamEnd + |EndstreamKw| <= |buffer|
    requires plan.flagAt.None? || plan.flagAt.value < plan.streamStart - |StreamKw|
    requires IsMatchAt(buffer, EndstreamKw, plan.streamEnd)
    requires |r| == |buffer| + 1
    requires forall k :: 0 <= k < |r| ==> r[k] == PatchedByte(buffer, plan, k)
    ensures var se := plan.streamEnd;
            && 1 <= se && r[se] == buffer[se - 1]
            && (forall k :: se < k <= se + |EndstreamKw| ==> r[k] == EndstreamKw[k - se - 1])
  {
    var se := plan.streamEnd;
    assert r[se] == PatchedByte(buffer, plan, se);
    forall k | se < k <= se + |EndstreamKw|
      ensures r[k] == EndstreamKw[k - se - 1]
    {
      assert r[k] == PatchedByte(buffer, plan, k) == buffer[k - 1];
      MatchedByte(buffer, EndstreamKw, se, k - 1);
    }
  }

  /** When the first `endstream` of the window starts before the end of its first
      `stream\n` (for instance when that `stream\n` is the tail of an `endstream\n`), the
      zero-fill changes nothing: without a filter rewrite only the flag byte changes. */
  lemma ReversedRangeErasesNothing(buffer: seq<byte>, out: seq<byte>, pos: int)
    requires pos >= Lookback && |out| >= |buffer|
    requires Locate(buffer, pos).Some?
    requires var plan := Locate(buffer, pos).value;
             plan.streamEnd < plan.streamStart && plan.filterAt.None?
    ensures var plan := Locate(buffer, pos).value;
            PatchAt(buffer, out, pos) ==
              Success(if plan.flagAt.Some? then out[plan.flagAt.value := FlagCleared] else out)
  {
    var plan := Locate(buffer, pos).value;
    LocateFlag(buffer, pos);
    PatchEffect(buffer, out, pos);
    var r := PatchAt(buffer, out, pos).value;
    var want := if plan.flagAt.Some? then out[plan.flagAt.value := FlagCleared] else out;
    assert |r| == |want|;
    forall k | 0 <= k < |r|
      ensures r[k] == want[k]
    {
      assert r[k] == PatchedByte(out, plan, k);
    }
    assert r == want;
  }

  /** A marker in the first 100 bytes of a file of at least 1100 bytes is never patched: the
      negative window start counts from the END of the buffer, past the window's end, so
      the window is empty. */
  lemma SmallOffsetNeverPatched(buffer: seq<byte>, out: seq<byte>, pos: int)
    requires 0 <= pos < Lookback && |buffer| >= Lookback + Lookahead
    ensures Window(buffer, pos) == []
    ensures PatchAt(buffer, out, pos) == Success(out)
  {
    assert SliceBound(pos - Lookback, |buffer|) == |buffer| + pos - Lookback;
    assert SliceBound(pos + Lookahead, |buffer|) == pos + Lookahead;
  }

  /** For a marker in the first 100 bytes of a file with at least `100 - pos` bytes, the
      window is taken from the end of the file, `[len + pos - 100, min(pos + 1000, len))`,
      not from its start. */
  lemma SmallOffsetWindowFromEnd(buffer: seq<byte>, pos: int)
    requires 0 <= pos < Lookback && Lookback <= |buffer| + pos
    ensures var lo := |buffer| + pos - Lookback;
            Window(buffer, pos) == if lo <= WindowHi(buffer, pos) then buffer[lo..WindowHi(buffer, pos)] else []
  {
  }

  /** A marker in the first 100 bytes of a short file can make the zero-fill delete bytes:
      with any 190 bytes in front of a closing `endstream\n` and a marker offset of 90,
      the window is the last ten bytes, the `stream\n` found there ends the raw range at 0
      and `endstream` starts it at -10, and `buf[0:-10] = b''` removes everything but those
      ten bytes. */
  lemma SmallOffsetEraseDeletes(buffer: seq<byte>)
    requires |buffer| == 200 && IsMatchAt(buffer, EndstreamKw, 190) && buffer[199] == 10
    ensures Locate(buffer, 90) == Some(Plan(0, -10, None, None))
    ensures PatchAt(buffer, buffer, 90) == Success(buffer[190..])
  {
    var plan := Plan(0, -10, None, None);
    var w := buffer[190..];
    assert Window(buffer, 90) == w;
    assert IsMatchAt(w, EndstreamKw, 0) by {
      forall k | 0 <= k < |EndstreamKw|
        ensures w[k] == EndstreamKw[k]
      {
        MatchedByte(buffer, EndstreamKw, 190, 190 + k);
      }
    }
    EndstreamLineFinds(w);
    assert Renamed(buffer, plan) == buffer;
    assert PatchAt(buffer, buffer, 90) == Success(Erased(buffer, plan));
    assert SliceBound(-10, |buffer|) == 190 && Zeros(-10) == [];
    assert Erased(buffer, plan) == buffer[..0] + [] + buffer[190..] == buffer[190..];
  }

  /** The four searches of `Locate` in the ten bytes `endstream\n`. */
  lemma EndstreamLineFinds(w: seq<byte>)
    requires |w| == 10 && IsMatchAt(w, EndstreamKw, 0) && w[9] == 10
    ensures Find(w, StreamKw, 0) == 3 && Find(w, EndstreamKw, 0) == 0
    ensures Find(w, FopnFilter, 0) == -1 && Find(w, FlagV1, 0) == -1
  {
    forall k | 0 <= k < 9
      ensures w[k] == EndstreamKw[k]
    {
      MatchedByte(w, EndstreamKw, 0, k);
    }
    assert IsMatchAt(w, StreamKw, 3);
    assert w[0 + 0] != StreamKw[0] && w[1 + 0] != StreamKw[0] && w[2 + 0] != StreamKw[0];
    var flagPos := Find(w, FlagV1, 0);
    if flagPos != -1 {
      MatchedByte(w, FlagV1, flagPos, flagPos);
      assert false;
    }
  }

  /** Whatever the zero-fill covers holds no occurrence of a pattern that starts with a
      non-zero byte, such as the FileOpen marker: a marker inside the stream data is wiped. */
  lemma ErasedRangeHoldsNoMatch(buffer: seq<byte>, out: seq<byte>, pos: int, p: seq<byte>, j: int)
    requires pos >= Lookback && |out| >= |buffer|
    requires Locate(buffer, pos).Some?
    requires Locate(buffer, pos).value.streamStart <= j < Locate(buffer, pos).value.streamEnd
    requires |p| > 0 && p[0] != 0
    ensures !IsMatchAt(PatchAt(buffer, out, pos).value, p, j)
  {
    LocateFits(buffer, pos);
    PatchEffect(buffer, out, pos);
    var r := PatchAt(buffer, out, pos).value;
    assert r[j + 0] == PatchedByte(out, Locate(buffer, pos).value, j) == 0 != p[0];
  }

  // ----- The whole loop -----

  /** How many of the offsets get their filter name rewritten. */
  function RenameCount(buffer: seq<byte>, positions: seq<int>): (n: nat)
  {
    if positions == [] then 0
    else
      var p := Locate(buffer, positions[0]);
      (if p.Some? && p.value.filterAt.Some? then 1 else 0) + RenameCount(buffer, positions[1..])
  }

  /** When every offset has a full lookback the loop never raises, and the result is longer
      than the input by the number of filter rewrites: each one inserts a byte. */
  lemma {:induction false} ProcessAllLength(buffer: seq<byte>, out: seq<byte>, positions: seq<int>)
    requires forall i :: 0 <= i < |positions| ==> positions[i] >= Lookback
    requires |out| >= |buffer|
    ensures ProcessAll(buffer, out, positions).Success?
    ensures |ProcessAll(buffer, out, positions).value| == |out| + RenameCount(buffer, positions)
    decreases |positions|
  {
    if positions != [] {
      var pos := positions[0];
      if Locate(buffer, pos).Some? {
        PatchEffect(buffer, out, pos);
      }
      var next := PatchAt(buffer, out, pos).value;
      ProcessAllLength(buffer, next, positions[1..]);
    }
  }

  /** An offset whose window lacks either stream keyword changes no byte; if that holds for
      every offset, the loop returns its input copy unchanged. */
  lemma {:induction false} ProcessAllUnpatched(buffer: seq<byte>, out: seq<byte>, positions: seq<int>)
    requires forall i :: 0 <= i < |positions| ==> !HasStreamKeywords(Window(buffer, positions[i]))
    ensures ProcessAll(buffer, out, positions) == Success(out)
    decreases |positions|
  {
    if positions != [] {
      ProcessAllUnpatched(buffer, out, positions[1..]);
    }
  }
}

=== FILE: pybytes.dfy ===
/**
  The Python operations on `bytes`, `str` and `bytearray` that the engine is built from:
  slicing with negative and out-of-range bounds, slice assignment (which may change the
  length of a bytearray), item assignment (which may raise IndexError), `b'\x00' * n` and
  `str.find`. Their semantics are written out because the engine relies on their edge cases.
*/
module PyBytes {
  import opened Base

  /** Where a slice bound `i` lands in a sequence of length `n`: a negative bound counts
      from the end, and the result is clamped to `[0, n]`. */
  function SliceBound(i: int, n: nat): (r: nat)
    ensures r <= n
    ensures 0 <= i <= n ==> r == i
  {
    if i < 0 then (if i + n < 0 then 0 else i + n)
    else if i > n then n
    else i
  }

  /** `s[i:j]`: empty when the normalised bounds are reversed. */
  function Slice<T>(s: seq<T>, i: int, j: int): (r: seq<T>)
    ensures |r| <= |s|
    ensures 0 <= i <= j <= |s| ==> r == s[i..j]
  {
    var lo, hi := SliceBound(i, |s|), SliceBound(j, |s|);
    if lo <= hi then s[lo..hi] else []
  }

  /** `s[i:j] = v` on a bytearray: the normalised range `[lo, max(lo, hi))` is replaced by
      `v`, so the length changes when `v` is longer or shorter than the range, and a
      reversed range inserts `v` at `lo`. */
  function SliceAssign<T>(s: seq<T>, i: int, j: int, v: seq<T>): (r: seq<T>)
    ensures 0 <= i <= j <= |s| ==> r == s[..i] + v + s[j..]
    ensures 0 <= j <= i <= |s| ==> r == s[..i] + v + s[i..]
  {
    var lo := SliceBound(i, |s|);
    var hi := if SliceBound(j, |s|) < lo then lo else SliceBound(j, |s|);
    s[..lo] + v + s[hi..]
  }

  /** `s[i] = x` on a bytearray: a negative index counts from the end; an index outside
      `[-|s|, |s|)` raises IndexError and changes nothing. */
  function SetItem(s: seq<byte>, i: int, x: byte): (r: Result<seq<byte>, Error>)
    ensures r.Success? <==> -|s| <= i < |s|
    ensures r.Failure? ==> r.error == IndexOutOfRange(i)
    ensures 0 <= i < |s| ==> r == Success(s[i := x])
    ensures -|s| <= i < 0 ==> r == Success(s[i + |s| := x])
  {
    if 0 <= i < |s| then Success(s[i := x])
    else if -|s| <= i < 0 then Success(s[i + |s| := x])
    else Failure(IndexOutOfRange(i))
  }

  /** `b'\x00' * n`: empty when `n` is zero or negative. */
  function Zeros(n: int): (r: seq<byte>)
    ensures |r| == if n < 0 then 0 else n
    ensures forall k :: 0 <= k < |r| ==> r[k] == 0
  {
    if n <= 0 then [] else seq(n, _ => 0)
  }

  /** `p` occurs in `s` starting at offset `i`. */
  predicate IsMatchAt(s: seq<byte>, p: seq<byte>, i: int)
  {
    0 <= i && i + |p| <= |s| && forall k :: 0 <= k < |p| ==> s[i + k] == p[k]
  }

  /** One byte of a match. */
  lemma MatchedByte(s: seq<byte>, p: seq<byte>, i: int, j: int)
    requires IsMatchAt(s, p, i) && i <= j < i + |p|
    ensures s[j] == p[j - i]
  {
    assert s[i + (j - i)] == p[j - i];
  }

  /** `s.find(p, from)`: the first offset at or after `from` where `p` occurs, or -1. */
  function Find(s: seq<byte>, p: seq<byte>, from: nat): (r: int)
    ensures r == -1 || (from <= r && IsMatchAt(s, p, r))
    ensures forall i :: from <= i && (r == -1 || i < r) ==> !IsMatchAt(s, p, i)
    decreases |s| - from
  {
    if from + |p| > |s| then -1
    else if IsMatchAt(s, p, from) then from
    else Find(s, p, from + 1)
  }

  /** A match inside the slice `s[lo..hi]` is a match of `s` shifted by `lo` that ends by `hi`. */
  lemma MatchInSlice(s: seq<byte>, lo: nat, hi: nat, p: seq<byte>, j: int)
    requires lo <= hi <= |s|
    ensures IsMatchAt(s[lo..hi], p, j) <==> 0 <= j && IsMatchAt(s, p, lo + j) && lo + j + |p| <= hi
  {
    if 0 <= j && lo + j + |p| <= hi {
      var inner, outer := s[lo..hi][j..j + |p|], s[lo + j..lo + j + |p|];
      assert forall k :: 0 <= k < |p| ==> inner[k] == outer[k];
      assert inner == outer;
    }
  }

  /** `p` lies wholly inside `s[lo..hi]` nowhere. */
  ghost predicate NoMatchIn(s: seq<byte>, p: seq<byte>, lo: int, hi: int)
  {
    forall j :: lo <= j && j + |p| <= hi ==> !IsMatchAt(s, p, j)
  }

  /** `p` lies wholly inside `s[lo..hi]` at `at`, and starts nowhere earlier in it. */
  ghost predicate FirstMatchIn(s: seq<byte>, p: seq<byte>, lo: int, hi: int, at: int)
  {
    && lo <= at && at + |p| <= hi && IsMatchAt(s, p, at)
    && forall j :: lo <= j < at ==> !IsMatchAt(s, p, j)
  }

  /** Searching the slice `s[lo..hi]` finds the first match of `s` that starts at or after
      `lo` and ends by `hi`, reported relative to `lo`. */
  lemma FindInSlice(s: seq<byte>, lo: nat, hi: nat, p: seq<byte>)
    requires lo <= hi <= |s|
    ensures var r := Find(s[lo..hi], p, 0);
            && (r == -1 <==> NoMatchIn(s, p, lo, hi))
            && (r != -1 ==> FirstMatchIn(s, p, lo, hi, lo + r))
  {
    var r := Find(s[lo..hi], p, 0);
    if r == -1 {
      forall j | lo <= j && j + |p| <= hi
        ensures !IsMatchAt(s, p, j)
      {
        MatchInSlice(s, lo, hi, p, j - lo);
      }
    } else {
      MatchInSlice(s, lo, hi, p, r);
      forall j | lo <= j < lo + r
        ensures !IsMatchAt(s, p, j)
      {
        MatchInSlice(s, lo, hi, p, j - lo);
      }
      assert !NoMatchIn(s, p, lo, hi);
    }
  }
}

=== FILE: scanner.dfy ===
/**
  The marker scanner (`find_all_occurrences`): every offset at which a pattern starts,
  found by repeated `find` that resumes one byte after each hit, so overlapping hits are
  reported too.
*/
module Scanner {
  import opened Base
  import opened PyBytes

  predicate StrictlyIncreasing(s: seq<nat>)
  {
    forall j, k :: 0 <= j < k < |s| ==> s[j] < s[k]
  }

  /** The offsets the generator yields once it has reached `from`: the next hit, then the
      hits after it, searching again from one byte past the hit. */
  function Occurrences(text: seq<byte>, pattern: seq<byte>, from: nat): (r: seq<nat>)
    ensures forall k :: 0 <= k < |r| ==> from <= r[k] && IsMatchAt(text, pattern, r[k])
    decreases |text| + 1 - from
  {
    var p := Find(text, pattern, from);
    if p == -1 then [] else [p as nat] + Occurrences(text, pattern, p + 1)
  }

  /** The scan misses nothing and reports nothing spurious: it yields exactly the offsets
      at or after `from` where the pattern occurs, in strictly ascending order. */
  lemma {:induction false} OccurrencesExact(text: seq<byte>, pattern: seq<byte>, from: nat)
    ensures StrictlyIncreasing(Occurrences(text, pattern, from))
    ensures forall k :: 0 <= k < |Occurrences(text, pattern, from)| ==>
              from <= Occurrences(text, pattern, from)[k]
    ensures forall i: nat :: i in Occurrences(text, pattern, from) <==>
              from <= i && IsMatchAt(text, pattern, i)
    decreases |text| + 1 - from
  {
    var p := Find(text, pattern, from);
    if p != -1 {
      OccurrencesExact(text, pattern, p + 1);
      var rest := Occurrences(text, pattern, p + 1);
      assert Occurrences(text, pattern, from) == [p as nat] + rest;
    }
  }

  /** With no occurrence at all the scan yields nothing, and otherwise it yields something. */
  lemma NoOccurrenceEmptyScan(text: seq<byte>, pattern: seq<byte>)
    ensures Occurrences(text, pattern, 0) == [] <==> forall i :: !IsMatchAt(text, pattern, i)
  {
    OccurrencesExact(text, pattern, 0);
    if Occurrences(text, pattern, 0) != [] {
      assert Occurrences(text, pattern, 0)[0] in Occurrences(text, pattern, 0);
    }
  }

  /** `find_all_occurrences(text, pattern)`: the generator's loop, collecting what it yields. */
  method FindAllOccurrences(text: seq<byte>, pattern: seq<byte>) returns (hits: seq<nat>)
    ensures hits == Occurrences(text, pattern, 0)
    ensures StrictlyIncreasing(hits)
    ensures forall i: nat :: i in hits <==> IsMatchAt(text, pattern, i)
  {
    hits := [];
    var pos: nat := 0;
    while true
      invariant pos <= |text| + 1
      invariant Occurrences(text, pattern, 0) == hits + Occurrences(text, pattern, pos)
      decreases |text| + 1 - pos
    {
      var found := Find(text, pattern, pos);
      if found == -1 {
        assert Occurrences(text, pattern, pos) == [];
        break;
      }
      ghost var rest := Occurrences(text, pattern, found + 1);
      assert Occurrences(text, pattern, pos) == [found as nat] + rest;
      assert hits + ([found as nat] + rest) == (hits + [found as nat]) + rest;
      hits, pos := hits + [found as nat], found + 1;
    }
    OccurrencesExact(text, pattern, 0);
  }
}
